=== FILE: README.md ===
# Club World Cup prediction tracker, modelled in Dafny

A group of friends predicts the scores of the fixtures of a football
tournament. One CSV file holds one line per match. Its first columns are
the date, the home side, the away side and the real score ("H-A"). Each
further column belongs to one participant and holds that participant's
predicted score.

The repository has two pieces of logic with real meaning, and this
project models both:

* `assets/tracker.js` scores every prediction, collects the distinct
  match dates in sorted order, and computes each participant's running
  total of points after each date. That data is what the chart draws.
* `scripts/abbreviate_teams.py` rewrites the `local` and `visitor`
  columns of such a CSV. It strips whitespace from each team name and
  replaces the name with the club's three-letter code when its table
  knows the name.

Modules, one file each:

| module | file | what it holds |
|---|---|---|
| `Wrappers` | wrappers.dfy | `Option` and `Result` |
| `Scoring` | scoring.dfy | a score, its goal difference and outcome, and `Points`, the scoring rule chain |
| `DateOrder` | date_order.dfy | the order `Array.prototype.sort` gives strings; strictly sorted sequences; ordered set insertion |
| `Tracker` | tracker.dfy | parsed records, the participant columns, the sorted distinct dates, the running totals as a functional series, and `Track`, the whole data pipeline |
| `TrackerLoop` | tracker_loop.dfy | the two nested `forEach` loops that fill `totals`, written as loops and proved equal to the functional series |
| `Abbreviate` | abbreviate.dfy | `str.strip`, the table lookup, the per-record rewrite, and the per-file run; all of them take the table as a parameter |
| `TeamTable` | team_table.dfy | the script's own `TEAM_ABBREVIATIONS`, entry for entry, with the facts proved about it |

Three behaviours of the code are worth stating up front:

* `tracker.js` computes no ranking or final standing. Its output is the
  per-date running totals, so no ranking is modelled.
* A malformed score is never rejected. `Number()` turns the text into
  numbers or NaN, and `points` simply returns whatever its comparisons
  give.
* With no records, `Object.keys(data[0])` throws. The model gives this
  case its own result, `NoRecords`.

## Model

| member | source | states |
|---|---|---|
| Scoring.Points | assets/tracker.js:2-11 | The result is one of 0, 2, 3, 5. It is 5 exactly for an exact prediction. It is 3 exactly for a different score with the same goal difference. It is 2 exactly for a different difference with the same winner or draw. It is 0 exactly when the prediction is missing or names a different outcome. These rules are stated in terms of who wins, not the sign arithmetic the code uses. |
| Scoring.RightOutcomeScores | assets/tracker.js:8-10 | A prediction earns at least 2 points if and only if it names the right outcome (home win, draw or away win). |
| Scoring.PointsSymmetric | assets/tracker.js:6-10 | Swapping the predicted and the actual score does not change the points. |
| Scoring.DrawAgainstDecisive | assets/tracker.js:9-10 | A drawn prediction against a decisive result, or the reverse, scores 0. |
| DateOrder.Less | assets/tracker.js:21 | The order `sort()` puts the dates in: character by character, a proper prefix first. The next four rows prove it is a strict total order, so the sorted list is unique. |
| DateOrder.LessIrreflexive | assets/tracker.js:21 | No date sorts before itself. |
| DateOrder.LessAsymmetric | assets/tracker.js:21 | Two dates never sort before each other. |
| DateOrder.LessTransitive | assets/tracker.js:21 | The sort order is transitive. |
| DateOrder.LessTotal | assets/tracker.js:21 | Any two different dates are ordered one way or the other, so `sort()` has a single answer. |
| DateOrder.SortedPositions | assets/tracker.js:21 | In the sorted date list, one date sorts before another exactly when it comes earlier in the list. Two entries are equal only at the same position. |
| DateOrder.Insert | assets/tracker.js:21 | Adding a date to a sorted, duplicate-free list keeps it sorted and duplicate-free. The new list holds exactly the old dates plus the new one, and grows by at most one. |
| DateOrder.SortedUnique | assets/tracker.js:21 | Two sorted, duplicate-free lists with the same elements are equal. So the `Set` and the `sort()` determine the date list completely. |
| Tracker.Prediction | assets/tracker.js:27 | `r[f]`: a column the record lacks reads as no prediction. That scores 0 by the contract of `Points`. |
| Tracker.RowPoints | assets/tracker.js:27 | `points(r[f], r.score)`, pinned down by `RowPointsCases`. A record whose score cell is empty (a fixture not yet played) earns nothing. |
| Tracker.RowPointsCases | assets/tracker.js:3-10 | An unplayed fixture earns 0 for everybody. Against a played fixture, an exact prediction earns 5 and a missing one 0, and every record earns 0, 2, 3 or 5. |
| Tracker.SumPoints | assets/tracker.js:27 | The `reduce` from 0, left to right. `SumPointsSnoc` states its step. |
| Tracker.SumPointsSnoc | assets/tracker.js:27 | Adding a record at the end of the reduce adds exactly that record's points. |
| Tracker.Todays | assets/tracker.js:25 | `todays` holds exactly the records whose date is the given day. `TodaysCopies` adds that it keeps every copy. |
| Tracker.TodaysCopies | assets/tracker.js:25 | `filter` keeps copies: a record played on the day occurs in `todays` as often as in the input, and any other record does not occur. |
| Tracker.DaySum | assets/tracker.js:25-27 | `today`: the participant's points over that day's records. `TodaysSnoc` and `UpToSplit` relate it to the records and to the running totals. |
| Tracker.UpTo | assets/tracker.js:24-30 | The records played on or before a date. This is the independent reference that `SeriesIsPrefixSum` proves the running totals equal. |
| Tracker.DistinctDates | assets/tracker.js:21 | The date list is strictly ascending and holds exactly the dates that occur in the records. |
| Tracker.DistinctDatesUnique | assets/tracker.js:21 | Every strictly ascending list of exactly the record dates is the one `DistinctDates` computes. |
| Tracker.Series | assets/tracker.js:28 | The running totals the date loop writes, one entry per date. `SeriesStep`, `SeriesNonDecreasing` and `SeriesIsPrefixSum` state what they are. |
| Tracker.SeriesStep | assets/tracker.js:28 | Each running total is the previous total plus that day's points. For the first date, the previous total is 0, as `totals[f][-1] \|\| 0` gives. |
| Tracker.SeriesNonDecreasing | assets/tracker.js:24-30 | A participant's running total never decreases from one date to a later one. |
| Tracker.UpToSnoc | assets/tracker.js:24-30 | One more record adds its points to the total up to a date exactly when it is played on or before that date. |
| Tracker.TodaysSnoc | assets/tracker.js:25-27 | One more record adds its points to a day's sum exactly when it is played on that day. |
| Tracker.OnOrBefore | assets/tracker.js:21 | Take a listed date on or before the i-th date. It is either the i-th date itself or on or before the (i-1)-th date, and never both. |
| Tracker.UpToSplit | assets/tracker.js:24-30 | The points up to the i-th date are the points up to the (i-1)-th date plus the points of the i-th date. |
| Tracker.SeriesIsPrefixSum | assets/tracker.js:24-30 | The i-th running total equals the participant's points summed over every match played on or before the i-th date. |
| Tracker.UpToLastIsAll | assets/tracker.js:21-30 | Every match is played on or before the last date of the list. |
| Tracker.Totals | assets/tracker.js:22-30 | There is one series per participant and no other. Each series has one entry per date, and entry i is the points up to the i-th date. Each series is non-decreasing. It starts with the first day's points and ends with the participant's points over all matches. |
| Tracker.Friends | assets/tracker.js:18 | `Object.keys(data[0]).slice(4)`: the first record's field names from the fifth on. `Track` states this element by element. |
| Tracker.Track | assets/tracker.js:18-30 | No records means the `data[0]` failure. A first record with four fields or fewer means no participants. Otherwise the result is a chart: the participants are the first record's field names from the fifth on, in order; the dates are non-empty, ascending and exactly the record dates; and every participant's totals meet all the guarantees of `Totals`. |
| TrackerLoop.Zeros | assets/tracker.js:22 | `Array(dates.length).fill(0)`. What these arrays mean for the loop is stated by `ZerosStart`. |
| TrackerLoop.ZerosStart | assets/tracker.js:22 | The zero-filled arrays are the date loop's starting state: exactly one per participant, each with one slot per date, and no date done yet. |
| TrackerLoop.SeriesSnoc | assets/tracker.js:28 | Extending the date list by one date appends exactly one running total. |
| TrackerLoop.StoreDay | assets/tracker.js:26-29 | Writing one participant's slot for the current date extends that participant's finished prefix. Every other participant's array keeps its progress. |
| TrackerLoop.FillDay | assets/tracker.js:26-29 | After the inner loop over participants, every array holds the correct running totals up to and including the current date. |
| TrackerLoop.FillTotals | assets/tracker.js:22-30 | The nested loops leave one array per participant, and each array equals the functional running-total series. |
| Abbreviate.IsSpace | scripts/abbreviate_teams.py:75 | The characters `str.isspace` accepts, and so the ones `strip()` removes. Besides ASCII whitespace these include the separators U+001C-U+001F, U+0085, U+00A0 and the Unicode space characters. `Strip` and `StripPadded` are stated over it. |
| Abbreviate.LeadingSpaces | scripts/abbreviate_teams.py:75 | Counts the whitespace characters at the start of a string. The next character, if there is one, is not whitespace. |
| Abbreviate.TrailingSpaces | scripts/abbreviate_teams.py:75 | Counts the whitespace characters at the end of a string. The character before them, if there is one, is not whitespace. |
| Abbreviate.Strip | scripts/abbreviate_teams.py:75 | `strip()` gives a contiguous slice of the input with no whitespace at either end. The slice starts after the leading whitespace, and every character outside it is whitespace. |
| Abbreviate.StripTrimmed | scripts/abbreviate_teams.py:75 | Stripping a string without whitespace at its ends leaves it unchanged. |
| Abbreviate.StripIdempotent | scripts/abbreviate_teams.py:75 | Stripping twice equals stripping once. |
| Abbreviate.StripUnique | scripts/abbreviate_teams.py:75 | Any trimmed slice with only whitespace outside it is the result of `strip()`. So the contract of `Strip` determines it completely. |
| Abbreviate.PaddedSlice | scripts/abbreviate_teams.py:75 | Padding a string with whitespace shifts its slices and keeps whitespace around them. |
| Abbreviate.StripPadded | scripts/abbreviate_teams.py:75 | Whitespace added around a string never changes what `strip()` returns. |
| Abbreviate.CodeIsNotName | scripts/abbreviate_teams.py:5-54 | In a table whose codes have three letters and whose names are longer, no code is itself a name. |
| Abbreviate.Abbreviation | scripts/abbreviate_teams.py:75-76 | `table.get(name.strip(), name.strip())`. What the lookup means for a cell is stated by `AbbreviationIgnoresPadding` and `AbbreviationIdempotent`. |
| Abbreviate.AbbreviationIgnoresPadding | scripts/abbreviate_teams.py:75-76 | A cell padded with whitespace is written exactly as the bare name would be, whatever the table holds. |
| Abbreviate.AbbreviationIdempotent | scripts/abbreviate_teams.py:75-76 | With such a table, abbreviating an already abbreviated name gives it back unchanged. |
| Abbreviate.RewriteColumn | scripts/abbreviate_teams.py:74-76 | Rewriting one column fails exactly when the record has that column and its cell is missing (`None.strip()`). It reports that column. On success, the field names stay the same, every other cell is unchanged, and the column holds the abbreviation of its text. |
| Abbreviate.RewriteRecord | scripts/abbreviate_teams.py:73-76 | A record is rewritten exactly when neither `local` nor `visitor` is a missing cell. The reported column is `local` if that cell is missing, otherwise `visitor`. Only these two cells change, each to the abbreviation of its text. A record with neither column is unchanged. |
| Abbreviate.RewriteIdempotent | scripts/abbreviate_teams.py:72-77 | With such a table, rewriting an already rewritten record changes nothing. |
| Abbreviate.CellText | scripts/abbreviate_teams.py:77 | What `DictWriter` writes for a field: the text, or empty for a missing or absent cell. `Line` and `LineOfRewrite` use it. |
| Abbreviate.Line | scripts/abbreviate_teams.py:77 | One written line, its cells in field-name order. What the rewrite does to it is stated by `LineOfRewrite`. |
| Abbreviate.LineOfRewrite | scripts/abbreviate_teams.py:68-77 | In the written line, a `local` or `visitor` cell the record has is the abbreviation of what would have been written without the rewrite. Every other field is written exactly as read. |
| Abbreviate.AbbreviateFile | scripts/abbreviate_teams.py:66-77 | The field names are written unchanged as the header. The script writes one line per record, in order, each the rewritten record, and stops at the first record it cannot rewrite, with the `AttributeError` that `None.strip()` raises. The file then holds exactly the lines before that record. The model's `RowError` records that record's index and column; the script itself reports neither, returns no path and prints no message. Without an error, it writes every record. |
| TeamTable.DictOf | scripts/abbreviate_teams.py:5-54 | What a Python dict literal builds from its entries, in order. `DictOfNames`, `DictOfLast` and `DictOfAppend` pin it down. |
| TeamTable.DictOfNames | scripts/abbreviate_teams.py:5-54 | The dict literal's names are exactly the names of its entries. |
| TeamTable.DictOfLast | scripts/abbreviate_teams.py:5-54 | A name maps to the code of its last entry. |
| TeamTable.DictOfAppend | scripts/abbreviate_teams.py:5-54 | Entries later in the literal override earlier ones, so the literal is the right-biased union of its parts. |
| TeamTable.DictOfWellShaped | scripts/abbreviate_teams.py:5-54 | Entries with long names and three-letter codes build a well-shaped dict. |
| TeamTable.UnionWellShaped | scripts/abbreviate_teams.py:5-54 | Joining two well-shaped parts of the literal keeps it well shaped. |
| TeamTable.Run1Shaped | scripts/abbreviate_teams.py:7-16 | These entries have names longer than three characters and codes of three capital letters. |
| TeamTable.Run2Shaped | scripts/abbreviate_teams.py:17-26 | These entries have names longer than three characters and codes of three capital letters. |
| TeamTable.Run3Shaped | scripts/abbreviate_teams.py:27-36 | These entries have names longer than three characters and codes of three capital letters. |
| TeamTable.Run4Shaped | scripts/abbreviate_teams.py:37-46 | These entries have names longer than three characters and codes of three capital letters. |
| TeamTable.Run5Shaped | scripts/abbreviate_teams.py:47-53 | These entries have names longer than three characters and codes of three capital letters. |
| TeamTable.TableByRuns | scripts/abbreviate_teams.py:5-54 | The table is the union of its runs of lines, and later runs override earlier ones. |
| TeamTable.TeamAbbreviations | scripts/abbreviate_teams.py:5-54 | `TEAM_ABBREVIATIONS`, built from its 47 entries in source order. `TableWellShaped` and the per-name rows state what it holds. |
| TeamTable.TableWellShaped | scripts/abbreviate_teams.py:5-54 | Every code in `TEAM_ABBREVIATIONS` has three capital letters, and every name is longer than that. |
| TeamTable.CodesAreNotNames | scripts/abbreviate_teams.py:5-54 | No code the table produces is itself a name the table rewrites. |
| TeamTable.TeamRewriteIdempotent | scripts/abbreviate_teams.py:72-77 | Running the script's rewrite on its own output record changes nothing more. |
| TeamTable.NotListed | scripts/abbreviate_teams.py:5-54 | A name with no entry is not in the dict. |
| TeamTable.LookupByRuns | scripts/abbreviate_teams.py:5-54 | A name takes its code from the last of the five runs of entries that lists it, for each of the five runs. |
| TeamTable.JuventusCode | scripts/abbreviate_teams.py:34 | "Juventus" maps to JUV. |
| TeamTable.ChelseaCode | scripts/abbreviate_teams.py:15 | "Chelsea" maps to CHE. |
| TeamTable.ChelseaFcCode | scripts/abbreviate_teams.py:16 | "Chelsea FC" maps to CHE as well. |
| TeamTable.BayernCode | scripts/abbreviate_teams.py:24 | "Bayern Munich" maps to BAY. |
| TeamTable.BaternCode | scripts/abbreviate_teams.py:25 | The misspelling "Batern Munich" from the data maps to BAY. |
| TeamTable.RepeatedName | scripts/abbreviate_teams.py:42-43 | "Paris Saint-Germain" is listed twice with the same code, and the dict maps it to PSG. |
| TeamTable.PaddedCellCode | scripts/abbreviate_teams.py:75-76 | A cell " Chelsea FC  " with stray spaces is written as CHE. |

## Left out

- Fetching `data.csv` and parsing it with Papa Parse (tracker.js 15-16) are I/O. Records arrive already parsed. `date` and the actual score are read by field name, as the code does.
- Score text and its `Number()` coercion (tracker.js 4-5) are not modelled. A prediction is `None` when its cell is empty or missing, and otherwise a pair of natural numbers. The actual score is `None` when its cell is empty (a fixture not yet played), which makes every record earn 0. JavaScript accepts much more text, and the model does not reproduce what it does with it:
  - "2-1-7" scores as 2-1, because the extra part is ignored.
  - "2-" scores as 2-0 and "-" as 0-0, because `Number("")` is 0.
  - Surrounding whitespace and decimals are accepted.
  - A leading minus is mis-split.
  - Other text becomes NaN, which makes every comparison false and scores 0.
  - Against an empty actual score, the prediction "0" scores 5, since both away goals are undefined.
- Scoring.Points: a goal count that is not a natural number, such as the decimal "1.5", is outside the model.
- Papa Parse omits the fields a short first record lacks, and the model takes the first record's field names as they come. A first record longer than the header gains the key `__parsed_extra`. That key becomes a participant, and its array cell makes `pred.split` throw. This crash is not modelled: a record's fields are names with text.
- `Object.keys` (tracker.js 18) lists integer-like keys before the others. The model takes the first record's field names in file order, which differs only for numeric participant names.
- JavaScript `sort()` compares UTF-16 code units, while `DateOrder.Less` compares characters. The two agree for ISO dates and for any text without characters outside the Basic Multilingual Plane.
- The chart (tracker.js 32-73) is presentation: the zoom plugin, colours, datasets and the canvas.
- The `abbreviate_teams` output-path default, `main`, argparse, the printed message and the file handles (abbreviate_teams.py 57-64 and 82-95) are I/O and command-line plumbing. The model takes the field names and the parsed records as parameters.
- A CSV line with more fields than the header is not modelled. `DictReader` stores the extras under the key `None`, and `DictWriter` then raises `ValueError`. A record holds only cells named by the header, or missing ones.
- `tracker.js` computes no ranking, so none is modelled.

=== FILE: abbreviate.dfy ===
/**
 * The row rewrite of scripts/abbreviate_teams.py: the `local` and `visitor`
 * cells of every CSV record are stripped of surrounding whitespace and
 * replaced by the club's three-letter code when the table knows the name.
 * The rewrite is stated for any table; the TeamTable module supplies the
 * script's own table and its facts.
 */
module Abbreviate {
  import opened Wrappers

  /** Characters `str.isspace` accepts, which `str.strip()` removes. */
  predicate IsSpace(c: char)
  {
    || '\t' <= c <= '\r'
    || '\U{1C}' <= c <= ' '
    || c == '\U{85}' || c == '\U{A0}' || c == '\U{1680}'
    || '\U{2000}' <= c <= '\U{200A}'
    || c == '\U{2028}' || c == '\U{2029}' || c == '\U{202F}' || c == '\U{205F}' || c == '\U{3000}'
  }

  /** Number of whitespace characters `s` starts with. */
  function LeadingSpaces(s: string): (n: nat)
    ensures n <= |s|
    ensures forall k :: 0 <= k < n ==> IsSpace(s[k])
    ensures n < |s| ==> !IsSpace(s[n])
  {
    if |s| == 0 || !IsSpace(s[0]) then 0
    else
      var n := LeadingSpaces(s[1..]);
      assert forall k :: 1 <= k < 1 + n ==> s[k] == s[1..][k - 1];
      1 + n
  }

  /** Number of whitespace characters `s` ends with. */
  function TrailingSpaces(s: string): (n: nat)
    ensures n <= |s|
    ensures forall k :: |s| - n <= k < |s| ==> IsSpace(s[k])
    ensures n < |s| ==> !IsSpace(s[|s| - 1 - n])
  {
    if |s| == 0 || !IsSpace(s[|s| - 1]) then 0
    else
      var n := TrailingSpaces(s[..|s| - 1]);
      assert forall k :: |s| - 1 - n <= k < |s| - 1 ==> s[k] == s[..|s| - 1][k];
      1 + n
  }

  /** A string with no whitespace at either end. */
  predicate Trimmed(s: string)
  {
    |s| == 0 || (!IsSpace(s[0]) && !IsSpace(s[|s| - 1]))
  }

  /**
   * `str.strip()`: the result is the slice of `s` that starts at the first
   * character that is not whitespace and ends at the last one; every
   * character outside the slice is whitespace.
   */
  function Strip(s: string): (r: string)
    ensures Trimmed(r)
    ensures var i := LeadingSpaces(s);
      && i + |r| <= |s|
      && r == s[i..i + |r|]
      && forall k :: 0 <= k < |s| && !(i <= k < i + |r|) ==> IsSpace(s[k])
  {
    var i := LeadingSpaces(s);
    var j := |s| - TrailingSpaces(s);
    if j <= i then [] else s[i..j]
  }

  /** Stripping a string that has no whitespace at its ends changes nothing. */
  lemma StripTrimmed(s: string)
    requires Trimmed(s)
    ensures Strip(s) == s
  {
  }

  lemma StripIdempotent(s: string)
    ensures Strip(Strip(s)) == Strip(s)
  {
    StripTrimmed(Strip(s));
  }

  /**
   * Any trimmed slice of `s` with only whitespace outside it is the one
   * `strip()` returns.
   */
  lemma StripUnique(s: string, r: string, i: nat)
    requires Trimmed(r)
    requires i + |r| <= |s| && r == s[i..i + |r|]
    requires forall k :: 0 <= k < |s| && !(i <= k < i + |r|) ==> IsSpace(s[k])
    ensures Strip(s) == r
  {
    if |r| > 0 {
      assert s[i] == r[0];
    }
  }

  /**
   * Padding a string with whitespace keeps each of its slices at the
   * shifted position, and keeps whitespace everywhere around the slice.
   */
  lemma PaddedSlice(pre: string, s: string, post: string, i: nat, n: nat)
    requires forall k :: 0 <= k < |pre| ==> IsSpace(pre[k])
    requires forall k :: 0 <= k < |post| ==> IsSpace(post[k])
    requires i + n <= |s|
    requires forall k :: 0 <= k < |s| && !(i <= k < i + n) ==> IsSpace(s[k])
    ensures (pre + s + post)[|pre| + i..|pre| + i + n] == s[i..i + n]
    ensures forall k :: 0 <= k < |pre + s + post| && !(|pre| + i <= k < |pre| + i + n) ==> IsSpace((pre + s + post)[k])
  {
    var p := pre + s + post;
    assert forall k :: 0 <= k < |s| ==> p[|pre| + k] == s[k];
    forall k | 0 <= k < |p| && !(|pre| + i <= k < |pre| + i + n)
      ensures IsSpace(p[k])
    {
      if k < |pre| {
        assert p[k] == pre[k];
      } else if k >= |pre| + |s| {
        assert p[k] == post[k - |pre| - |s|];
      }
    }
  }

  /** Whitespace around a string does not change what `strip()` returns. */
  lemma StripPadded(pre: string, s: string, post: string)
    requires forall k :: 0 <= k < |pre| ==> IsSpace(pre[k])
    requires forall k :: 0 <= k < |post| ==> IsSpace(post[k])
    ensures Strip(pre + s + post) == Strip(s)
  {
    var r := Strip(s);
    var i := LeadingSpaces(s);
    PaddedSlice(pre, s, post, i, |r|);
    StripUnique(pre + s + post, r, |pre| + i);
  }

  /** A club code: three capital letters. */
  predicate IsCode(c: string)
  {
    |c| == 3 && 'A' <= c[0] <= 'Z' && 'A' <= c[1] <= 'Z' && 'A' <= c[2] <= 'Z'
  }

  /** Every value is a code, and every name is longer than a code. */
  predicate WellShaped(table: map<string, string>)
  {
    && (forall name :: name in table ==> |name| > 3)
    && (forall name :: name in table ==> IsCode(table[name]))
  }

  /** In a well-shaped table no value is also a name. */
  lemma CodeIsNotName(table: map<string, string>, name: string)
    requires WellShaped(table) && name in table
    ensures table[name] !in table
  {
  }

  /**
   * `table.get(name, name)` on the stripped name: the code of a known name,
   * otherwise the stripped name itself.
   */
  function Abbreviation(table: map<string, string>, name: string): (a: string)
    ensures Strip(name) in table ==> a == table[Strip(name)]
    ensures Strip(name) !in table ==> a == Strip(name)
  {
    var n := Strip(name);
    if n in table then table[n] else n
  }

  /** A name padded with whitespace abbreviates like the bare name. */
  lemma AbbreviationIgnoresPadding(table: map<string, string>, pre: string, name: string, post: string)
    requires forall k :: 0 <= k < |pre| ==> IsSpace(pre[k])
    requires forall k :: 0 <= k < |post| ==> IsSpace(post[k])
    ensures Abbreviation(table, pre + name + post) == Abbreviation(table, name)
  {
    StripPadded(pre, name, post);
  }

  /** With a well-shaped table, abbreviating an abbreviation gives it back. */
  lemma AbbreviationIdempotent(table: map<string, string>, name: string)
    requires WellShaped(table)
    ensures Abbreviation(table, Abbreviation(table, name)) == Abbreviation(table, name)
  {
    var n := Strip(name);
    if n in table {
      StripTrimmed(table[n]);
    } else {
      StripIdempotent(name);
    }
  }

  /**
   * A cell of a record read by `csv.DictReader`: its text, or Missing (the
   * reader's `None`) when the line has fewer fields than the header.
   */
  datatype Cell = Text(text: string) | Missing

  /** A record: field name to cell. */
  type Record = map<string, Cell>

  /**
   * `if col in row: row[col] = table.get(row[col].strip(), ...)`: the rewrite
   * of one column when the record has it; a Missing cell has no `strip`.
   */
  function RewriteColumn(table: map<string, string>, row: Record, col: string): (r: Result<Record, string>)
    ensures r.Failure? <==> col in row && row[col].Missing?
    ensures r.Failure? ==> r.error == col
    ensures r.Success? ==> r.value.Keys == row.Keys
    ensures r.Success? ==> forall c :: c in row && c != col ==> r.value[c] == row[c]
    ensures r.Success? && col in row ==> r.value[col] == Text(Abbreviation(table, row[col].text))
  {
    if col !in row then Success(row)
    else match row[col]
      case Missing => Failure(col)
      case Text(s) => Success(row[col := Text(Abbreviation(table, s))])
  }

  /**
   * `for col in ("local", "visitor")`: the rewrite of one record. It fails
   * on the first of the two columns whose cell is Missing; otherwise only
   * those two cells change.
   */
  function RewriteRecord(table: map<string, string>, row: Record): (r: Result<Record, string>)
    ensures r.Success? <==>
      && ("local" in row ==> row["local"].Text?)
      && ("visitor" in row ==> row["visitor"].Text?)
    ensures r.Failure? ==>
      r.error == (if "local" in row && row["local"].Missing? then "local" else "visitor")
    ensures r.Success? ==> r.value.Keys == row.Keys
    ensures r.Success? ==> forall c :: c in row && c != "local" && c != "visitor" ==> r.value[c] == row[c]
    ensures r.Success? && "local" in row ==>
      r.value["local"] == Text(Abbreviation(table, row["local"].text))
    ensures r.Success? && "visitor" in row ==>
      r.value["visitor"] == Text(Abbreviation(table, row["visitor"].text))
    ensures "local" !in row && "visitor" !in row ==> r == Success(row)
  {
    match RewriteColumn(table, row, "local")
    case Failure(col) => Failure(col)
    case Success(row') => RewriteColumn(table, row', "visitor")
  }

  /** Rewriting a rewritten record changes nothing more. */
  lemma RewriteIdempotent(table: map<string, string>, row: Record)
    requires WellShaped(table)
    requires RewriteRecord(table, row).Success?
    ensures RewriteRecord(table, RewriteRecord(table, row).value) == RewriteRecord(table, row)
  {
    var once := RewriteRecord(table, row).value;
    var twice := RewriteRecord(table, once);
    forall c | c in once && (c == "local" || c == "visitor")
      ensures twice.value[c] == once[c]
    {
      AbbreviationIdempotent(table, row[c].text);
    }
    assert twice.value == once;
  }

  /** What `csv.DictWriter` writes for one field: the text, or "" for a Missing or absent cell. */
  function CellText(row: Record, field: string): string
  {
    if field in row && row[field].Text? then row[field].text else ""
  }

  /** One output line: the record's cells in header order. */
  function Line(fieldnames: seq<string>, row: Record): (line: seq<string>)
    ensures |line| == |fieldnames|
    ensures forall k :: 0 <= k < |fieldnames| ==> line[k] == CellText(row, fieldnames[k])
  {
    seq(|fieldnames|, k requires 0 <= k < |fieldnames| => CellText(row, fieldnames[k]))
  }

  /**
   * What the rewrite does to a written line: a `local` or `visitor` cell the
   * record has is written as the abbreviation of what would have been
   * written without the rewrite; every other field is written unchanged.
   */
  lemma LineOfRewrite(table: map<string, string>, fieldnames: seq<string>, row: Record, k: int)
    requires RewriteRecord(table, row).Success?
    requires 0 <= k < |fieldnames|
    ensures var before := Line(fieldnames, row);
      var after := Line(fieldnames, RewriteRecord(table, row).value);
      && |after| == |before|
      && after[k] == if (fieldnames[k] == "local" || fieldnames[k] == "visitor") && fieldnames[k] in row
                     then Abbreviation(table, before[k])
                     else before[k]
  {
  }

  /**
   * Where the script stops: `None.strip()` raises `AttributeError` on the
   * cell `column` of record number `index` (0-based, header not counted).
   * The exception names neither; the model records them to say which
   * record stopped the run.
   */
  datatype RowError = RowError(index: nat, column: string)

  /** What the script leaves in the output file, and whether it stopped early. */
  datatype Written = Written(header: seq<string>, lines: seq<seq<string>>, error: Option<RowError>)

  /**
   * `abbreviate_teams`: the header is written unchanged, then one line per
   * record in input order, each the rewritten record; the first record whose
   * `local` or `visitor` cell is Missing stops the run after the lines before it.
   */
  method AbbreviateFile(table: map<string, string>, fieldnames: seq<string>, rows: seq<Record>)
    returns (w: Written)
    ensures w.header == fieldnames
    ensures |w.lines| <= |rows|
    ensures forall k :: 0 <= k < |w.lines| ==>
      RewriteRecord(table, rows[k]).Success? && w.lines[k] == Line(fieldnames, RewriteRecord(table, rows[k]).value)
    ensures w.error.None? <==> forall k :: 0 <= k < |rows| ==> RewriteRecord(table, rows[k]).Success?
    ensures w.error.None? ==> |w.lines| == |rows|
    ensures w.error.Some? ==>
      w.error.value.index == |w.lines| < |rows|
      && RewriteRecord(table, rows[|w.lines|]) == Failure(w.error.value.column)
  {
    var lines := [];
    var i := 0;
    while i < |rows|
      invariant i <= |rows| && |lines| == i
      invariant forall k :: 0 <= k < i ==>
        RewriteRecord(table, rows[k]).Success? && lines[k] == Line(fieldnames, RewriteRecord(table, rows[k]).value)
    {
      match RewriteRecord(table, rows[i]) {
        case Failure(col) =>
          return Written(fieldnames, lines, Some(RowError(i, col)));
        case Success(row) =>
          lines := lines + [Line(fieldnames, row)];
      }
      i := i + 1;
    }
    return Written(fieldnames, lines, None);
  }
}

=== FILE: date_order.dfy ===
/**
 * The order JavaScript's default `Array.prototype.sort` puts strings in:
 * character by character, a proper prefix before any longer string.
 * Dates are ISO texts, so this is also their chronological order.
 */
module DateOrder {

  /** `a` sorts strictly before `b`. */
  predicate Less(a: string, b: string)
  {
    if |a| == 0 then |b| > 0
    else if |b| == 0 then false
    else if a[0] != b[0] then a[0] < b[0]
    else Less(a[1..], b[1..])
  }

  lemma {:induction false} LessIrreflexive(a: string)
    ensures !Less(a, a)
  {
    if |a| > 0 {
      LessIrreflexive(a[1..]);
    }
  }

  lemma {:induction false} LessAsymmetric(a: string, b: string)
    requires Less(a, b)
    ensures !Less(b, a)
  {
    if |a| > 0 && |b| > 0 && a[0] == b[0] {
      LessAsymmetric(a[1..], b[1..]);
    }
  }

  lemma {:induction false} LessTransitive(a: string, b: string, c: string)
    requires Less(a, b) && Less(b, c)
    ensures Less(a, c)
  {
    if |a| > 0 && a[0] == b[0] && b[0] == c[0] {
      LessTransitive(a[1..], b[1..], c[1..]);
    }
  }

  lemma {:induction false} LessTotal(a: string, b: string)
    ensures a == b || Less(a, b) || Less(b, a)
  {
    if |a| > 0 && |b| > 0 && a[0] == b[0] {
      LessTotal(a[1..], b[1..]);
      if a[1..] == b[1..] {
        assert a == [a[0]] + a[1..];
        assert b == [b[0]] + b[1..];
      }
    }
  }

  /** Ascending with no repeated element. */
  predicate StrictlySorted(s: seq<string>)
  {
    forall i, j :: 0 <= i < j < |s| ==> Less(s[i], s[j])
  }

  /** In a strictly sorted sequence the order of elements is the order of positions. */
  lemma SortedPositions(s: seq<string>, i: int, j: int)
    requires StrictlySorted(s)
    requires 0 <= i < |s| && 0 <= j < |s|
    ensures Less(s[i], s[j]) <==> i < j
    ensures s[i] == s[j] <==> i == j
  {
    if j < i {
      LessAsymmetric(s[j], s[i]);
    } else if i == j {
      LessIrreflexive(s[i]);
    } else {
      LessIrreflexive(s[i]);
    }
  }

  /** Adds `d` to a strictly sorted sequence unless it is already there (a set insert kept in order). */
  function Insert(d: string, s: seq<string>): (r: seq<string>)
    requires StrictlySorted(s)
    ensures StrictlySorted(r)
    ensures forall x :: x in r <==> x in s || x == d
    ensures |r| <= |s| + 1
  {
    if |s| == 0 then [d]
    else if d == s[0] then s
    else if Less(d, s[0]) then
      assert forall j :: 0 < j < |s| ==> Less(d, s[j]) by {
        forall j | 0 < j < |s| ensures Less(d, s[j]) {
          LessTransitive(d, s[0], s[j]);
        }
      }
      [d] + s
    else
      LessTotal(d, s[0]);
      var rest := Insert(d, s[1..]);
      assert forall x :: x in rest ==> Less(s[0], x) by {
        forall x | x in rest ensures Less(s[0], x) {
          if x != d {
            var j :| 0 <= j < |s[1..]| && s[1..][j] == x;
            assert s[j + 1] == x;
          }
        }
      }
      [s[0]] + rest
  }

  /**
   * The first element of a non-empty sequence is in it. Stated for every
   * sequence, so that the impossible cases of `SortedUnique` can use it
   * without a checked index in a branch whose facts already clash.
   */
  lemma HeadIsMember(s: seq<string>)
    ensures |s| > 0 ==> s[0] in s
  {
  }

  /**
   * Two strictly sorted sequences holding the same elements are equal:
   * a strictly sorted sequence is determined by its set of elements.
   */
  lemma {:induction false} SortedUnique(a: seq<string>, b: seq<string>)
    requires StrictlySorted(a) && StrictlySorted(b)
    requires forall x :: x in a <==> x in b
    ensures a == b
  {
    if |a| == 0 || |b| == 0 {
      HeadIsMember(a);
      HeadIsMember(b);
    } else {
      assert a[0] in b;
      assert b[0] in a;
      var j :| 0 <= j < |b| && b[j] == a[0];
      var k :| 0 <= k < |a| && a[k] == b[0];
      if j != 0 {
        assert Less(b[0], a[0]);
        if k == 0 {
          LessIrreflexive(a[0]);
        } else {
          LessAsymmetric(b[0], a[0]);
        }
      }
      assert a[0] == b[0];
      forall x
        ensures x in a[1..] <==> x in b[1..]
      {
        if x in a[1..] {
          var i :| 0 <= i < |a[1..]| && a[1..][i] == x;
          SortedPositions(a, 0, i + 1);
          assert x in b;
          var m :| 0 <= m < |b| && b[m] == x;
          assert b[1..][m - 1] == x;
        }
        if x in b[1..] {
          var i :| 0 <= i < |b[1..]| && b[1..][i] == x;
          SortedPositions(b, 0, i + 1);
          assert x in a;
          var m :| 0 <= m < |a| && a[m] == x;
          assert a[1..][m - 1] == x;
        }
      }
      SortedUnique(a[1..], b[1..]);
      assert a == [a[0]] + a[1..];
      assert b == [b[0]] + b[1..];
    }
  }
}

=== FILE: scoring.dfy ===
/**
 * Scoring of one prediction against the real result of a fixture
 * (`points` in assets/tracker.js).
 */
module Scoring {
  import opened Wrappers

  /** A scoreline: goals of the home side, goals of the away side. */
  datatype Score = Score(home: nat, away: nat)

  /** Goal difference, home minus away. */
  function Diff(s: Score): int {
    s.home - s.away
  }

  /** `Math.sign` restricted to integers. */
  function Sign(x: int): int {
    if x > 0 then 1 else if x < 0 then -1 else 0
  }

  /** Who won a match, stated without arithmetic. */
  datatype Outcome = HomeWin | Draw | AwayWin

  function OutcomeOf(s: Score): Outcome {
    if s.away < s.home then HomeWin
    else if s.home == s.away then Draw
    else AwayWin
  }

  /**
   * Points for a prediction (None when the cell is empty or missing).
   * The rules are tried in priority order: exact score 5, same goal
   * difference 3, same sign of the difference 2, otherwise 0.
   * The contract restates the rules through the outcome of the match,
   * independently of the sign arithmetic the body uses.
   */
  function Points(pred: Option<Score>, actual: Score): (p: nat)
    ensures p in {0, 2, 3, 5}
    ensures p == 5 <==> pred == Some(actual)
    ensures p == 3 <==> pred.Some? && pred.value != actual && Diff(pred.value) == Diff(actual)
    ensures p == 2 <==> pred.Some? && Diff(pred.value) != Diff(actual)
                        && OutcomeOf(pred.value) == OutcomeOf(actual)
    ensures p == 0 <==> pred.None? || OutcomeOf(pred.value) != OutcomeOf(actual)
  {
    match pred
    case None => 0
    case Some(ps) =>
      if ps == actual then 5
      else if Diff(ps) == Diff(actual) then 3
      else if Sign(Diff(ps)) == Sign(Diff(actual)) then 2
      else 0
  }

  /** Any prediction that gets the outcome right earns at least 2 points, and only those do. */
  lemma RightOutcomeScores(pred: Score, actual: Score)
    ensures Points(Some(pred), actual) >= 2 <==> OutcomeOf(pred) == OutcomeOf(actual)
  {
  }

  /** Swapping prediction and result does not change the points. */
  lemma PointsSymmetric(a: Score, b: Score)
    ensures Points(Some(a), b) == Points(Some(b), a)
  {
  }

  /** A drawn prediction against a decisive result, or the reverse, earns nothing. */
  lemma DrawAgainstDecisive(pred: Score, actual: Score)
    requires (OutcomeOf(pred) == Draw) != (OutcomeOf(actual) == Draw)
    ensures Points(Some(pred), actual) == 0
  {
  }
}

=== FILE: team_table.dfy ===
/**
 * `TEAM_ABBREVIATIONS` of scripts/abbreviate_teams.py, its shape, and the
 * script's rewrite applied with it.
 */
module TeamTable {
  import opened Abbreviate

  /**
   * The dict a Python dict literal builds from its entries: they are
   * inserted in order, and a later entry replaces an earlier one with the
   * same name.
   */
  function DictOf(entries: seq<(string, string)>): map<string, string>
  {
    if |entries| == 0 then map[]
    else DictOf(entries[..|entries| - 1])[entries[|entries| - 1].0 := entries[|entries| - 1].1]
  }

  /** The names of the dict are exactly the names of the entries. */
  lemma {:induction false} DictOfNames(entries: seq<(string, string)>, name: string)
    ensures name in DictOf(entries) <==> exists i :: 0 <= i < |entries| && entries[i].0 == name
  {
    if |entries| > 0 {
      var n := |entries| - 1;
      DictOfNames(entries[..n], name);
      if exists i :: 0 <= i < n && entries[..n][i].0 == name {
        var i :| 0 <= i < n && entries[..n][i].0 == name;
        assert entries[i].0 == name;
      }
      if exists i :: 0 <= i < |entries| && entries[i].0 == name {
        var i :| 0 <= i < |entries| && entries[i].0 == name;
        if i < n {
          assert entries[..n][i].0 == name;
        }
      }
    }
  }

  /** A name maps to the value of its last entry. */
  lemma {:induction false} DictOfLast(entries: seq<(string, string)>, i: int)
    requires 0 <= i < |entries|
    requires forall j :: i < j < |entries| ==> entries[j].0 != entries[i].0
    ensures entries[i].0 in DictOf(entries) && DictOf(entries)[entries[i].0] == entries[i].1
  {
    var n := |entries| - 1;
    if i < n {
      assert entries[..n][i] == entries[i];
      DictOfLast(entries[..n], i);
    }
  }

  /** Building from two runs of entries is building from each and letting the second win. */
  lemma {:induction false} DictOfAppend(a: seq<(string, string)>, b: seq<(string, string)>)
    ensures DictOf(a + b) == DictOf(a) + DictOf(b)
  {
    if |b| > 0 {
      var n := |b| - 1;
      assert (a + b)[..|a| + n] == a + b[..n];
      DictOfAppend(a, b[..n]);
    } else {
      assert a + b == a;
    }
  }

  /*
   * The table, entry for entry and in source order, in five runs of at most
   * ten entries: Run1 holds lines 7-16 of scripts/abbreviate_teams.py, Run2
   * lines 17-26, Run3 lines 27-36, Run4 lines 37-46 and Run5 lines 47-53.
   * "Paris Saint-Germain" is listed twice (lines 42 and 43) with the same
   * code.
   */

  const Run1: seq<(string, string)> := [
    ("Al Hilal", "HIL"),
    ("Atlético de Madrid", "ATM"),
    ("Atletico Madrid", "ATM"),
    ("Auckland City", "AKL"),
    ("Auckland City FC", "AKL"),
    ("Boca Juniors", "BOC"),
    ("Borussia Dortmund", "BVB"),
    ("Botafogo", "BOT"),
    ("Chelsea", "CHE"),
    ("Chelsea FC", "CHE")
  ]

  const Run2: seq<(string, string)> := [
    ("CF Monterrey", "MTY"),
    ("Monterrey", "MTY"),
    ("CF Pachuca", "PNC"),
    ("Pachuca", "PNC"),
    ("Espérance de Túnis", "EST"),
    ("Esperance de Tunis", "EST"),
    ("FC Bayern Munich", "BAY"),
    ("Bayern Munich", "BAY"),
    ("Batern Munich", "BAY"),
    ("FC Porto", "POR")
  ]

  const Run3: seq<(string, string)> := [
    ("Porto", "POR"),
    ("RB Salzburg", "SAL"),
    ("FC Salzburg", "SAL"),
    ("Flamengo", "FLA"),
    ("Fluminense", "FLU"),
    ("Inter Miami CF", "MIA"),
    ("Inter Milan", "INT"),
    ("Juventus", "JUV"),
    ("Juventus FC", "JUV"),
    ("Los Angeles FC", "LAF")
  ]

  const Run4: seq<(string, string)> := [
    ("LAFC", "LAF"),
    ("Mamelodi Sundowns", "SUN"),
    ("Manchester City", "MCI"),
    ("Manchester City FC", "MCI"),
    ("Palmeiras", "PNL"),
    ("Paris Saint-Germain", "PSG"),
    ("Paris Saint-Germain", "PSG"),
    ("Real Madrid", "RMA"),
    ("Real Madrid CF", "RMA"),
    ("River Plate", "RIV")
  ]

  const Run5: seq<(string, string)> := [
    ("Seattle Sounders FC", "SEA"),
    ("SL Benfica", "BEN"),
    ("Benfica", "BEN"),
    ("Ulsan HD FC", "ULS"),
    ("Ulsan Hyundai", "ULS"),
    ("Urawa Red Diamonds", "URD"),
    ("Wydad AC", "WAC")
  ]

  const TeamAbbreviations: map<string, string> :=
    DictOf(Run1 + Run2 + Run3 + Run4 + Run5)

  predicate EntryShaped(e: (string, string))
  {
    |e.0| > 3 && IsCode(e.1)
  }

  /** A dict built from entries whose names are long and whose values are codes is well shaped. */
  lemma {:induction false} DictOfWellShaped(entries: seq<(string, string)>)
    requires forall i :: 0 <= i < |entries| ==> EntryShaped(entries[i])
    ensures WellShaped(DictOf(entries))
  {
    if |entries| > 0 {
      var n := |entries| - 1;
      assert forall i :: 0 <= i < n ==> entries[..n][i] == entries[i];
      DictOfWellShaped(entries[..n]);
      assert EntryShaped(entries[n]);
    }
  }

  lemma UnionWellShaped(a: map<string, string>, b: map<string, string>)
    requires WellShaped(a) && WellShaped(b)
    ensures WellShaped(a + b)
  {
  }

  lemma Run1Shaped()
    ensures WellShaped(DictOf(Run1))
  {
    assert forall i :: 0 <= i < |Run1| ==> EntryShaped(Run1[i]);
    DictOfWellShaped(Run1);
  }

  lemma Run2Shaped()
    ensures WellShaped(DictOf(Run2))
  {
    assert forall i :: 0 <= i < |Run2| ==> EntryShaped(Run2[i]);
    DictOfWellShaped(Run2);
  }

  lemma Run3Shaped()
    ensures WellShaped(DictOf(Run3))
  {
    assert forall i :: 0 <= i < |Run3| ==> EntryShaped(Run3[i]);
    DictOfWellShaped(Run3);
  }

  lemma Run4Shaped()
    ensures WellShaped(DictOf(Run4))
  {
    assert forall i :: 0 <= i < |Run4| ==> EntryShaped(Run4[i]);
    DictOfWellShaped(Run4);
  }

  lemma Run5Shaped()
    ensures WellShaped(DictOf(Run5))
  {
    assert forall i :: 0 <= i < |Run5| ==> EntryShaped(Run5[i]);
    DictOfWellShaped(Run5);
  }

  /** The table, run by run: each run's entries override the earlier runs'. */
  lemma TableByRuns()
    ensures TeamAbbreviations
         == DictOf(Run1) + DictOf(Run2) + DictOf(Run3)
            + DictOf(Run4) + DictOf(Run5)
  {
    DictOfAppend(Run1, Run2);
    DictOfAppend(Run1 + Run2, Run3);
    DictOfAppend(Run1 + Run2 + Run3, Run4);
    DictOfAppend(Run1 + Run2 + Run3 + Run4, Run5);
  }

  /** Every code has three capital letters, and every name is longer than a code. */
  lemma TableWellShaped()
    ensures WellShaped(TeamAbbreviations)
  {
    TableByRuns();
    Run1Shaped();
    Run2Shaped();
    Run3Shaped();
    Run4Shaped();
    Run5Shaped();
    UnionWellShaped(DictOf(Run1), DictOf(Run2));
    UnionWellShaped(DictOf(Run1) + DictOf(Run2), DictOf(Run3));
    UnionWellShaped(DictOf(Run1) + DictOf(Run2) + DictOf(Run3), DictOf(Run4));
    UnionWellShaped(DictOf(Run1) + DictOf(Run2) + DictOf(Run3) + DictOf(Run4), DictOf(Run5));
  }

  /** No code is itself a name the table rewrites. */
  lemma CodesAreNotNames(name: string)
    requires name in TeamAbbreviations
    ensures TeamAbbreviations[name] !in TeamAbbreviations
  {
    TableWellShaped();
    CodeIsNotName(TeamAbbreviations, name);
  }

  /** Running the script's rewrite on its own output record changes nothing more. */
  lemma TeamRewriteIdempotent(row: Record)
    requires RewriteRecord(TeamAbbreviations, row).Success?
    ensures RewriteRecord(TeamAbbreviations, RewriteRecord(TeamAbbreviations, row).value)
         == RewriteRecord(TeamAbbreviations, row)
  {
    TableWellShaped();
    RewriteIdempotent(TeamAbbreviations, row);
  }

  /** `name` has no entry in `entries`. */
  lemma NotListed(entries: seq<(string, string)>, name: string)
    requires forall i :: 0 <= i < |entries| ==> entries[i].0 != name
    ensures name !in DictOf(entries)
  {
    DictOfNames(entries, name);
  }

  /**
   * A name looks up the code of the last run that lists it: the runs are
   * searched from the end of the literal.
   */
  lemma LookupByRuns(name: string)
    ensures name in DictOf(Run5) ==> name in TeamAbbreviations && TeamAbbreviations[name] == DictOf(Run5)[name]
    ensures name !in DictOf(Run5) && name in DictOf(Run4) ==>
      name in TeamAbbreviations && TeamAbbreviations[name] == DictOf(Run4)[name]
    ensures name !in DictOf(Run5) && name !in DictOf(Run4) && name in DictOf(Run3) ==>
      name in TeamAbbreviations && TeamAbbreviations[name] == DictOf(Run3)[name]
    ensures name !in DictOf(Run5) && name !in DictOf(Run4) && name !in DictOf(Run3) && name in DictOf(Run2) ==>
      name in TeamAbbreviations && TeamAbbreviations[name] == DictOf(Run2)[name]
    ensures name !in DictOf(Run5) && name !in DictOf(Run4) && name !in DictOf(Run3) && name !in DictOf(Run2) && name in DictOf(Run1) ==>
      name in TeamAbbreviations && TeamAbbreviations[name] == DictOf(Run1)[name]
  {
    TableByRuns();
  }

  /** Juventus, named in the third run, is JUV. */
  lemma JuventusCode()
    ensures "Juventus" in TeamAbbreviations && TeamAbbreviations["Juventus"] == "JUV"
  {
    assert "Juventus" in DictOf(Run3) && DictOf(Run3)["Juventus"] == "JUV" by {
      DictOfLast(Run3, 7);
    }
    assert "Juventus" !in DictOf(Run4) by { NotListed(Run4, "Juventus"); }
    assert "Juventus" !in DictOf(Run5) by { NotListed(Run5, "Juventus"); }
    LookupByRuns("Juventus");
  }

  /** Chelsea, listed without the club suffix, is CHE. */
  lemma ChelseaCode()
    ensures "Chelsea" in TeamAbbreviations && TeamAbbreviations["Chelsea"] == "CHE"
  {
    assert "Chelsea" in DictOf(Run1) && DictOf(Run1)["Chelsea"] == "CHE" by {
      DictOfLast(Run1, 8);
    }
    assert "Chelsea" !in DictOf(Run2) by { NotListed(Run2, "Chelsea"); }
    assert "Chelsea" !in DictOf(Run3) by { NotListed(Run3, "Chelsea"); }
    assert "Chelsea" !in DictOf(Run4) by { NotListed(Run4, "Chelsea"); }
    assert "Chelsea" !in DictOf(Run5) by { NotListed(Run5, "Chelsea"); }
    LookupByRuns("Chelsea");
  }

  /** Chelsea with the club suffix is CHE too. */
  lemma ChelseaFcCode()
    ensures "Chelsea FC" in TeamAbbreviations && TeamAbbreviations["Chelsea FC"] == "CHE"
  {
    assert "Chelsea FC" in DictOf(Run1) && DictOf(Run1)["Chelsea FC"] == "CHE" by {
      DictOfLast(Run1, 9);
    }
    assert "Chelsea FC" !in DictOf(Run2) by { NotListed(Run2, "Chelsea FC"); }
    assert "Chelsea FC" !in DictOf(Run3) by { NotListed(Run3, "Chelsea FC"); }
    assert "Chelsea FC" !in DictOf(Run4) by { NotListed(Run4, "Chelsea FC"); }
    assert "Chelsea FC" !in DictOf(Run5) by { NotListed(Run5, "Chelsea FC"); }
    LookupByRuns("Chelsea FC");
  }

  /** Bayern Munich is BAY. */
  lemma BayernCode()
    ensures "Bayern Munich" in TeamAbbreviations && TeamAbbreviations["Bayern Munich"] == "BAY"
  {
    assert "Bayern Munich" in DictOf(Run2) && DictOf(Run2)["Bayern Munich"] == "BAY" by {
      DictOfLast(Run2, 7);
    }
    assert "Bayern Munich" !in DictOf(Run1) by { NotListed(Run1, "Bayern Munich"); }
    assert "Bayern Munich" !in DictOf(Run3) by { NotListed(Run3, "Bayern Munich"); }
    assert "Bayern Munich" !in DictOf(Run4) by { NotListed(Run4, "Bayern Munich"); }
    assert "Bayern Munich" !in DictOf(Run5) by { NotListed(Run5, "Bayern Munich"); }
    LookupByRuns("Bayern Munich");
  }

  /** The misspelling "Batern Munich" that occurs in the data is BAY as well. */
  lemma BaternCode()
    ensures "Batern Munich" in TeamAbbreviations && TeamAbbreviations["Batern Munich"] == "BAY"
  {
    assert "Batern Munich" in DictOf(Run2) && DictOf(Run2)["Batern Munich"] == "BAY" by {
      DictOfLast(Run2, 8);
    }
    assert "Batern Munich" !in DictOf(Run1) by { NotListed(Run1, "Batern Munich"); }
    assert "Batern Munich" !in DictOf(Run3) by { NotListed(Run3, "Batern Munich"); }
    assert "Batern Munich" !in DictOf(Run4) by { NotListed(Run4, "Batern Munich"); }
    assert "Batern Munich" !in DictOf(Run5) by { NotListed(Run5, "Batern Munich"); }
    LookupByRuns("Batern Munich");
  }

  /** "Paris Saint-Germain" is listed twice; the dict keeps one code for it. */
  lemma RepeatedName()
    ensures Run4[5] == Run4[6]
    ensures "Paris Saint-Germain" in TeamAbbreviations && TeamAbbreviations["Paris Saint-Germain"] == "PSG"
  {
    assert "Paris Saint-Germain" in DictOf(Run4) && DictOf(Run4)["Paris Saint-Germain"] == "PSG" by {
      DictOfLast(Run4, 6);
    }
    assert "Paris Saint-Germain" !in DictOf(Run5) by { NotListed(Run5, "Paris Saint-Germain"); }
    LookupByRuns("Paris Saint-Germain");
  }

  /** A cell " Chelsea FC " with stray spaces, as the data may hold it, is written as CHE. */
  lemma PaddedCellCode()
    ensures Abbreviation(TeamAbbreviations, " " + "Chelsea FC" + "  ") == "CHE"
  {
    assert Strip("Chelsea FC") == "Chelsea FC" by {
      StripTrimmed("Chelsea FC");
    }
    assert Abbreviation(TeamAbbreviations, "Chelsea FC") == "CHE" by {
      ChelseaFcCode();
    }
    AbbreviationIgnoresPadding(TeamAbbreviations, " ", "Chelsea FC", "  ");
  }
}

=== FILE: tracker.dfy ===
/**
 * The data side of assets/tracker.js: who the participants are, the
 * distinct match dates in order, and each participant's running total of
 * points per date. Rows arrive already parsed.
 */
module Tracker {
  import opened Wrappers
  import opened Scoring
  import opened DateOrder

  /**
   * One parsed CSV record: the names of its fields in column order (the
   * first four are date, home side, away side and actual score), the match
   * date, the actual score (None while the score cell is empty, that is, for
   * a fixture not yet played), and the prediction cells by participant
   * (None for an empty cell).
   */
  datatype Row = Row(
    columns: seq<string>,
    date: string,
    actual: Option<Score>,
    predictions: map<string, Option<Score>>)

  /** `r[f]`: a column the record lacks reads as no prediction. */
  function Prediction(r: Row, f: string): Option<Score> {
    if f in r.predictions then r.predictions[f] else None
  }

  /**
   * `points(r[f], r.score)`. An empty score cell splits into `[0]`, so the
   * away goals are undefined and every comparison in `points` with a
   * prediction of two numbers is false: such a record earns nothing.
   */
  function RowPoints(r: Row, f: string): nat {
    match r.actual
    case None => 0
    case Some(a) => Points(Prediction(r, f), a)
  }

  /** A fixture not yet played adds nothing to anybody; a played one scores as `points` does. */
  lemma RowPointsCases(r: Row, f: string)
    ensures r.actual.None? ==> RowPoints(r, f) == 0
    ensures r.actual.Some? && Prediction(r, f) == r.actual ==> RowPoints(r, f) == 5
    ensures Prediction(r, f).None? ==> RowPoints(r, f) == 0
    ensures RowPoints(r, f) in {0, 2, 3, 5}
  {
  }

  /** Points of participant `f` summed over `rows`, left to right. */
  function SumPoints(rows: seq<Row>, f: string): nat {
    if |rows| == 0 then 0
    else SumPoints(rows[..|rows| - 1], f) + RowPoints(rows[|rows| - 1], f)
  }

  lemma SumPointsSnoc(rows: seq<Row>, r: Row, f: string)
    ensures SumPoints(rows + [r], f) == SumPoints(rows, f) + RowPoints(r, f)
  {
    assert (rows + [r])[..|rows|] == rows;
  }

  /** The records of the matches played on date `d`, in input order. */
  function Todays(rows: seq<Row>, d: string): (t: seq<Row>)
    ensures forall r :: r in t <==> r in rows && r.date == d
  {
    if |rows| == 0 then []
    else
      assert rows == rows[..|rows| - 1] + [rows[|rows| - 1]];
      var init := Todays(rows[..|rows| - 1], d);
      if rows[|rows| - 1].date == d then init + [rows[|rows| - 1]] else init
  }

  /**
   * `filter` keeps every copy: a record played on `d` occurs in `todays` as
   * often as in the input, any other record not at all.
   */
  lemma {:induction false} TodaysCopies(rows: seq<Row>, d: string, r: Row)
    ensures multiset(Todays(rows, d))[r] == if r.date == d then multiset(rows)[r] else 0
  {
    if |rows| > 0 {
      var n := |rows| - 1;
      assert rows == rows[..n] + [rows[n]];
      TodaysCopies(rows[..n], d, r);
    }
  }

  /** Points of participant `f` over the matches on date `d`. */
  function DaySum(rows: seq<Row>, d: string, f: string): nat {
    SumPoints(Todays(rows, d), f)
  }

  /** The records of the matches played on or before date `d`, in input order. */
  function UpTo(rows: seq<Row>, d: string): seq<Row> {
    if |rows| == 0 then []
    else
      var init := UpTo(rows[..|rows| - 1], d);
      if !Less(d, rows[|rows| - 1].date) then init + [rows[|rows| - 1]] else init
  }

  /** The dates that occur in `rows`. */
  function DateSet(rows: seq<Row>): set<string> {
    set r | r in rows :: r.date
  }

  /**
   * `[...new Set(data.map(r => r.date))].sort()`: the distinct dates of the
   * records, in ascending order.
   */
  function DistinctDates(rows: seq<Row>): (ds: seq<string>)
    ensures StrictlySorted(ds)
    ensures forall x :: x in ds <==> x in DateSet(rows)
  {
    if |rows| == 0 then []
    else
      assert rows == rows[..|rows| - 1] + [rows[|rows| - 1]];
      Insert(rows[|rows| - 1].date, DistinctDates(rows[..|rows| - 1]))
  }

  /**
   * Building the set of dates in first-occurrence order and sorting it gives
   * the same sequence as any other way of listing the distinct dates in
   * ascending order.
   */
  lemma DistinctDatesUnique(rows: seq<Row>, ds: seq<string>)
    requires StrictlySorted(ds)
    requires forall x :: x in ds <==> x in DateSet(rows)
    ensures ds == DistinctDates(rows)
  {
    SortedUnique(ds, DistinctDates(rows));
  }

  /**
   * Running totals of participant `f` over `dates`, built the way the date
   * loop fills `totals[f]`: entry i is entry i-1 (0 before the first date)
   * plus the points of the matches on dates[i].
   */
  function Series(rows: seq<Row>, dates: seq<string>, f: string): (s: seq<nat>)
    ensures |s| == |dates|
  {
    if |dates| == 0 then []
    else
      var prev := Series(rows, dates[..|dates| - 1], f);
      prev + [(if |prev| == 0 then 0 else prev[|prev| - 1]) + DaySum(rows, dates[|dates| - 1], f)]
  }

  /** Each entry of a series is the previous one (0 for the first) plus that day's points. */
  lemma {:induction false} SeriesStep(rows: seq<Row>, dates: seq<string>, f: string, i: int)
    requires 0 <= i < |dates|
    ensures Series(rows, dates, f)[i]
         == (if i == 0 then 0 else Series(rows, dates, f)[i - 1]) + DaySum(rows, dates[i], f)
  {
    var n := |dates|;
    var init := dates[..n - 1];
    if i < n - 1 {
      SeriesStep(rows, init, f, i);
      assert init[i] == dates[i];
    }
  }

  /** Totals never go down from one date to a later one. */
  lemma {:induction false} SeriesNonDecreasing(rows: seq<Row>, dates: seq<string>, f: string, i: int, j: int)
    requires 0 <= i <= j < |dates|
    ensures Series(rows, dates, f)[i] <= Series(rows, dates, f)[j]
  {
    if i < j {
      SeriesNonDecreasing(rows, dates, f, i, j - 1);
      SeriesStep(rows, dates, f, j);
    }
  }

  /** Adding one record at the end adds its points to the total up to `d` when it is played by then. */
  lemma UpToSnoc(rows: seq<Row>, r: Row, d: string, f: string)
    ensures SumPoints(UpTo(rows + [r], d), f)
         == SumPoints(UpTo(rows, d), f) + (if !Less(d, r.date) then RowPoints(r, f) else 0)
  {
    assert (rows + [r])[..|rows|] == rows;
    if !Less(d, r.date) {
      SumPointsSnoc(UpTo(rows, d), r, f);
    }
  }

  /** Adding one record at the end adds its points to the day `d` when it is played that day. */
  lemma TodaysSnoc(rows: seq<Row>, r: Row, d: string, f: string)
    ensures DaySum(rows + [r], d, f)
         == DaySum(rows, d, f) + (if r.date == d then RowPoints(r, f) else 0)
  {
    assert (rows + [r])[..|rows|] == rows;
    if r.date == d {
      SumPointsSnoc(Todays(rows, d), r, f);
    }
  }

  /**
   * A date of a sorted list is on or before dates[i] exactly when it is
   * dates[i] itself or on or before dates[i-1], and never both.
   */
  lemma OnOrBefore(dates: seq<string>, i: int, d: string)
    requires StrictlySorted(dates)
    requires 0 <= i < |dates|
    requires d in dates
    ensures !Less(dates[i], d) <==> d == dates[i] || (i > 0 && !Less(dates[i - 1], d))
    ensures !(d == dates[i] && i > 0 && !Less(dates[i - 1], d))
  {
    var k :| 0 <= k < |dates| && dates[k] == d;
    SortedPositions(dates, i, k);
    SortedPositions(dates, k, i);
    if i > 0 {
      SortedPositions(dates, i - 1, k);
      SortedPositions(dates, k, i - 1);
    }
  }

  /**
   * With the dates strictly sorted and covering every record, the matches up
   * to dates[i] are those up to dates[i-1] (none when i is 0) plus those on
   * dates[i].
   */
  lemma {:induction false} UpToSplit(rows: seq<Row>, dates: seq<string>, f: string, i: int)
    requires StrictlySorted(dates)
    requires forall r :: r in rows ==> r.date in dates
    requires 0 <= i < |dates|
    ensures SumPoints(UpTo(rows, dates[i]), f)
         == (if i == 0 then 0 else SumPoints(UpTo(rows, dates[i - 1]), f)) + DaySum(rows, dates[i], f)
  {
    if |rows| > 0 {
      var n := |rows|;
      var init := rows[..n - 1];
      var r := rows[n - 1];
      assert rows == init + [r];
      assert forall x :: x in init ==> x in rows;
      UpToSplit(init, dates, f, i);
      OnOrBefore(dates, i, r.date);
      UpToSnoc(init, r, dates[i], f);
      TodaysSnoc(init, r, dates[i], f);
      if i > 0 {
        UpToSnoc(init, r, dates[i - 1], f);
      }
    }
  }

  /** Entry i of a series is the participant's points over all matches up to dates[i]. */
  lemma {:induction false} SeriesIsPrefixSum(rows: seq<Row>, dates: seq<string>, f: string, i: int)
    requires StrictlySorted(dates)
    requires forall r :: r in rows ==> r.date in dates
    requires 0 <= i < |dates|
    ensures Series(rows, dates, f)[i] == SumPoints(UpTo(rows, dates[i]), f)
  {
    SeriesStep(rows, dates, f, i);
    UpToSplit(rows, dates, f, i);
    if i > 0 {
      SeriesIsPrefixSum(rows, dates, f, i - 1);
    }
  }

  /** Every record is played on or before the last of a covering sorted date list. */
  lemma {:induction false} UpToLastIsAll(rows: seq<Row>, dates: seq<string>)
    requires StrictlySorted(dates)
    requires forall r :: r in rows ==> r.date in dates
    requires |dates| > 0
    ensures UpTo(rows, dates[|dates| - 1]) == rows
  {
    if |rows| > 0 {
      var n := |rows|;
      var r := rows[n - 1];
      assert rows == rows[..n - 1] + [r];
      UpToLastIsAll(rows[..n - 1], dates);
      var k :| 0 <= k < |dates| && dates[k] == r.date;
      SortedPositions(dates, |dates| - 1, k);
    }
  }

  /**
   * `Object.fromEntries(friends.map(f => [f, series]))`: one running-total
   * series per participant, with everything the chart is promised about it.
   */
  function Totals(rows: seq<Row>, friends: seq<string>, dates: seq<string>): (m: map<string, seq<nat>>)
    requires StrictlySorted(dates)
    requires forall r :: r in rows ==> r.date in dates
    ensures forall f :: f in m <==> f in friends
    ensures forall f :: f in m ==> |m[f]| == |dates|
    ensures forall f, i :: f in m && 0 <= i < |dates| ==> m[f][i] == SumPoints(UpTo(rows, dates[i]), f)
    ensures forall f, i, j :: f in m && 0 <= i <= j < |dates| ==> m[f][i] <= m[f][j]
    ensures forall f :: f in m && |dates| > 0 ==> m[f][0] == DaySum(rows, dates[0], f)
    ensures forall f :: f in m && |dates| > 0 ==> m[f][|dates| - 1] == SumPoints(rows, f)
  {
    var m := map f | f in friends :: Series(rows, dates, f);
    assert forall f, i :: f in m && 0 <= i < |dates| ==> m[f][i] == SumPoints(UpTo(rows, dates[i]), f) by {
      forall f, i | f in m && 0 <= i < |dates|
        ensures m[f][i] == SumPoints(UpTo(rows, dates[i]), f)
      {
        SeriesIsPrefixSum(rows, dates, f, i);
      }
    }
    assert forall f, i, j :: f in m && 0 <= i <= j < |dates| ==> m[f][i] <= m[f][j] by {
      forall f, i, j | f in m && 0 <= i <= j < |dates|
        ensures m[f][i] <= m[f][j]
      {
        SeriesNonDecreasing(rows, dates, f, i, j);
      }
    }
    assert forall f :: f in m && |dates| > 0 ==>
      m[f][0] == DaySum(rows, dates[0], f) && m[f][|dates| - 1] == SumPoints(rows, f) by {
      forall f | f in m && |dates| > 0
        ensures m[f][0] == DaySum(rows, dates[0], f)
        ensures m[f][|dates| - 1] == SumPoints(rows, f)
      {
        SeriesStep(rows, dates, f, 0);
        UpToLastIsAll(rows, dates);
        SeriesIsPrefixSum(rows, dates, f, |dates| - 1);
      }
    }
    m
  }

  /** `Object.keys(data[0]).slice(4)`: the prediction columns. */
  function Friends(columns: seq<string>): seq<string> {
    if |columns| < 4 then [] else columns[4..]
  }

  /**
   * What the script ends with: no records (reading the keys of `data[0]`
   * fails), no prediction columns (it returns before drawing), or a chart
   * of the participants, the dates and each participant's running totals.
   */
  datatype Tracking =
    | NoRecords
    | NoParticipants
    | Chart(friends: seq<string>, dates: seq<string>, totals: map<string, seq<nat>>)

  function Track(rows: seq<Row>): (t: Tracking)
    ensures t.NoRecords? <==> |rows| == 0
    ensures t.NoParticipants? <==> |rows| > 0 && |rows[0].columns| <= 4
    ensures t.Chart? ==>
      && |t.friends| == |rows[0].columns| - 4
      && (forall k :: 0 <= k < |t.friends| ==> t.friends[k] == rows[0].columns[k + 4])
      && StrictlySorted(t.dates)
      && |t.dates| > 0
      && (forall x :: x in t.dates <==> x in DateSet(rows))
      && (forall f :: f in t.totals <==> f in t.friends)
      && (forall f :: f in t.totals ==> |t.totals[f]| == |t.dates|)
      && (forall f, i :: f in t.totals && 0 <= i < |t.dates| ==>
            t.totals[f][i] == SumPoints(UpTo(rows, t.dates[i]), f))
      && (forall f, i, j :: f in t.totals && 0 <= i <= j < |t.dates| ==>
            t.totals[f][i] <= t.totals[f][j])
      && (forall f :: f in t.totals ==> t.totals[f][0] == DaySum(rows, t.dates[0], f))
      && (forall f :: f in t.totals ==> t.totals[f][|t.dates| - 1] == SumPoints(rows, f))
  {
    if |rows| == 0 then NoRecords
    else
      var friends := Friends(rows[0].columns);
      if |friends| == 0 then NoParticipants
      else
        var dates := DistinctDates(rows);
        assert rows[0].date in dates;
        Chart(friends, dates, Totals(rows, friends, dates))
  }
}

=== FILE: tracker_loop.dfy ===
/**
 * The nested loops of assets/tracker.js that fill `totals`, written as
 * loops over a map of per-participant arrays, and proved to build the
 * functional series of the Tracker module.
 */
module TrackerLoop {
  import opened Tracker

  /** `Array(n).fill(0)` */
  function Zeros(n: nat): (z: seq<nat>)
    ensures |z| == n && forall k :: 0 <= k < n ==> z[k] == 0
  {
    seq(n, _ => 0)
  }

  /** Every array has one slot per date and its first `n` slots hold the running totals. */
  ghost predicate Filled(totals: map<string, seq<nat>>, rows: seq<Row>, dates: seq<string>, n: nat)
    requires n <= |dates|
  {
    forall f :: f in totals ==> |totals[f]| == |dates| && totals[f][..n] == Series(rows, dates[..n], f)
  }

  /**
   * The arrays `Array(dates.length).fill(0)` are where the date loop starts:
   * one per participant, each of the right length, with no date done yet.
   */
  lemma ZerosStart(rows: seq<Row>, friends: seq<string>, dates: seq<string>)
    ensures var totals := map f | f in friends :: Zeros(|dates|);
      && (forall f :: f in totals <==> f in friends)
      && Filled(totals, rows, dates, 0)
  {
  }

  /** Extending the date list by one date appends one running total. */
  lemma SeriesSnoc(rows: seq<Row>, dates: seq<string>, f: string, i: int)
    requires 0 <= i < |dates|
    ensures var s := Series(rows, dates[..i], f);
      Series(rows, dates[..i + 1], f)
        == s + [(if i == 0 then 0 else s[i - 1]) + DaySum(rows, dates[i], f)]
  {
    assert dates[..i + 1][..i] == dates[..i];
  }

  /** The arrays of the participants in `done` also hold the running total of dates[i]. */
  ghost predicate DayDone(totals: map<string, seq<nat>>, rows: seq<Row>, dates: seq<string>, i: nat,
                          done: seq<string>)
    requires i < |dates|
  {
    forall f :: f in totals && f in done ==>
      |totals[f]| == |dates| && totals[f][..i + 1] == Series(rows, dates[..i + 1], f)
  }

  /** Writing slot i of `f`'s array as the loop does keeps every other array's progress. */
  lemma StoreDay(totals: map<string, seq<nat>>, rows: seq<Row>, dates: seq<string>, i: nat,
                 done: seq<string>, f: string, updated: seq<nat>)
    requires i < |dates|
    requires f in totals
    requires Filled(totals, rows, dates, i)
    requires DayDone(totals, rows, dates, i, done)
    requires updated == totals[f][i := (if i == 0 then 0 else totals[f][i - 1]) + DaySum(rows, dates[i], f)]
    ensures Filled(totals[f := updated], rows, dates, i)
    ensures DayDone(totals[f := updated], rows, dates, i, done + [f])
  {
    SeriesSnoc(rows, dates, f, i);
    assert updated[..i] == totals[f][..i];
    assert updated[..i + 1] == totals[f][..i] + [updated[i]];
  }

  /** The inner loop: `friends.forEach(f => totals[f][i] = (totals[f][i - 1] || 0) + today)`. */
  method FillDay(rows: seq<Row>, friends: seq<string>, dates: seq<string>, i: nat,
                 totals: map<string, seq<nat>>)
    returns (next: map<string, seq<nat>>)
    requires i < |dates|
    requires forall f :: f in totals <==> f in friends
    requires Filled(totals, rows, dates, i)
    ensures forall f :: f in next <==> f in friends
    ensures Filled(next, rows, dates, i + 1)
  {
    var todays := Todays(rows, dates[i]);
    next := totals;
    var k := 0;
    while k < |friends|
      invariant 0 <= k <= |friends|
      invariant forall f :: f in next <==> f in friends
      invariant Filled(next, rows, dates, i)
      invariant DayDone(next, rows, dates, i, friends[..k])
    {
      var f := friends[k];
      var today := SumPoints(todays, f);
      var prev := if i == 0 then 0 else next[f][i - 1];
      var updated := next[f][i := prev + today];
      assert friends[..k + 1] == friends[..k] + [f];
      StoreDay(next, rows, dates, i, friends[..k], f, updated);
      next := next[f := updated];
      k := k + 1;
    }
    assert friends[..k] == friends;
  }

  /** The outer loop: `dates.forEach((d, i) => ...)` over arrays filled with zeros. */
  method FillTotals(rows: seq<Row>, friends: seq<string>, dates: seq<string>)
    returns (totals: map<string, seq<nat>>)
    ensures forall f :: f in totals <==> f in friends
    ensures forall f :: f in totals ==> totals[f] == Series(rows, dates, f)
  {
    totals := map f | f in friends :: Zeros(|dates|);
    ZerosStart(rows, friends, dates);
    var i := 0;
    while i < |dates|
      invariant 0 <= i <= |dates|
      invariant forall f :: f in totals <==> f in friends
      invariant Filled(totals, rows, dates, i)
    {
      totals := FillDay(rows, friends, dates, i, totals);
      i := i + 1;
    }
    assert dates[..i] == dates;
    forall f | f in totals
      ensures totals[f] == Series(rows, dates, f)
    {
      assert totals[f][..i] == totals[f];
    }
  }
}

=== FILE: wrappers.dfy ===
/** Option and Result, shared by the modules of this model. */
module Wrappers {

  /** A value that may be absent. */
  datatype Option<+T> = None | Some(value: T)

  /** Either a value or the error that stopped the computation. */
  datatype Result<+R, +E> = Success(value: R) | Failure(error: E)
}
